=== FILE: README.md ===
# Movie and series discovery client: a Dafny model of its logic

The client queries a movie/TV metadata API, merges the movie and series results into one
grid sorted by popularity, filters that grid by category, shows result cards with field
fallbacks, keeps a per-user "watched" list in browser storage, and records per-user search
counts in a remote document store (Appwrite). This project models that logic as pure Dafny
functions over immutable data and proves its properties.

- `wrappers.dfy`: `Option` (JavaScript `null`/`undefined`), and the truthiness, `||` and
  template-literal rules the client relies on (`Js`).
- `decimal.dfy`: `String(id)` / `${id}` for a non-negative integer id, with a parse round trip.
- `seqs.dfy`: `filter`, building a `Set` from a list (`new Set(list)`) and deleting from it,
  first match, `split(sep)[0]`. Adding to the set is appending the key, in `Watched.Toggle`.
- `ordering.dfy`: the stable descending sort the merge and the trending query use.
- `watched.dfy`: the `useWatched` hook: keys, load on user change, persist, membership, toggle, count.
- `media.dfy`: the result record (`Tmdb`) and the card's field fallbacks (`MovieCard`).
- `appwrite.dfy`: the search-count upsert, trending query, and watched-document list/add/remove.
- `app.dfy`: `fetchData`'s merge and outcome, the grid filter, card keys, signed-in gating,
  and the watched-only view's dropping of failed detail fetches.

Modelling choices:

- The watched set is a duplicate-free sequence, in the order a JavaScript `Set` iterates.
  Persisting writes `[...set]` in that order. Toggling a watched key twice gives back the
  same set of keys, but that key moves to the end.
- Browser storage is a map from storage key to what reading and parsing the entry gives:
  blank, unparseable, or a list of keys. `JSON.parse` itself is not modelled.
- Popularity is an integer. JavaScript's `sort` must be stable since ECMAScript 2019, so the
  merge is a stable insertion sort. Equal popularity keeps movies before series.
- A collection is a sequence of documents in storage order. An unordered query's "first
  match" is the earliest such document. Trending ties are kept in storage order, because the
  store leaves their order open.
- Every remote call takes a `Call` input that says whether it goes through. A failed call
  changes nothing and returns the source's fallback: an empty list, `null` or `false`.
  `ID.unique()` becomes a `newId` input.
- The hook keeps the watched list in browser storage only, with no optimistic updates or
  rollback, and never calls the remote watched-item operations. Those operations are
  modelled on their own.
- Signed out, the hook's toggle still flips the in-memory set and writes nothing. The page
  passes the detail view a null `onToggleWatched` then, modelled by `App.ModalToggle`.
  The `App` members model the props the page passes. The components do not read
  them (see "Left out").

## Model

| member | source | states |
|---|---|---|
| Decimal.NatToString | movie/src/appwrite.js:90 | an id's text is a non-empty run of digits without a leading zero |
| Decimal.ParseNatToString | movie/src/appwrite.js:90 | reading the stored id text back gives the id |
| Decimal.NatToStringInjective | movie/src/appwrite.js:108 | distinct ids have distinct texts, so the remove query's text match is a match on the id |
| Seqs.Dedup | movie/src/hooks/useWatched.js:23 | `new Set(list)` has no duplicates and the same members, and is the list itself when it had no duplicates |
| Seqs.DedupFirstOccurrenceOrder | movie/src/hooks/useWatched.js:23 | `new Set(list)` iterates in order of first occurrence: of two members, the earlier occurs in the list before the later one first does |
| Seqs.RemoveValue | movie/src/hooks/useWatched.js:50 | deleting a key removes exactly that key, keeps the set duplicate-free, and shrinks a set holding it by one |
| Seqs.RemoveValueIsFilter | movie/src/hooks/useWatched.js:50 | deleting a key is filtering it out: the remaining keys keep their order |
| Seqs.PrefixBefore | movie/src/components/MovieCard.jsx:28 | `split('-')[0]` is the longest prefix without '-', ending at the first '-' or the end |
| Seqs.Filter | movie/src/App.jsx:224 | `filter` keeps each passing element as often as it occurs and drops every other, in order |
| Ordering.SortDesc | movie/src/App.jsx:83-84 | the sorted list is a permutation of the input in non-increasing key order |
| Ordering.FilterSort | movie/src/App.jsx:83-84 | restricting the sorted list to any test equals sorting the restricted list |
| Ordering.SortKeepsTies | movie/src/App.jsx:84 | the sort is stable: elements with equal keys keep their input order |
| Ordering.TopN | movie/src/appwrite.js:47-48 | exactly n elements, or all of them when there are at most n, highest key first, with no left-out element outranking a kept one |
| Watched.MakeKey | movie/src/hooks/useWatched.js:39 | a key is the media type, '-', then the id's decimal text (digits that read back as the id, with no leading zero); for a type without '-' it splits at its first '-' back into the type |
| Watched.MakeKeyInjective | movie/src/hooks/useWatched.js:39 | for media types without '-', two keys are equal exactly when type and id are |
| Watched.StorageKey | movie/src/hooks/useWatched.js:12 | there is a storage key exactly when there is a user |
| Watched.StorageKeyInjective | movie/src/hooks/useWatched.js:12 | distinct users have distinct storage keys |
| Watched.Load | movie/src/hooks/useWatched.js:15-30 | on user change the set is empty without a user, else holds exactly the stored keys (the stored list itself when it has no repeats) when present and parseable, else is empty; it never holds duplicates |
| Watched.Persist | movie/src/hooks/useWatched.js:33-37 | persisting writes the list under the user's key only, and writes nothing without a user |
| Watched.IsWatched | movie/src/hooks/useWatched.js:41-43 | a title is watched exactly when its key is a member of the set |
| Watched.Toggle | movie/src/hooks/useWatched.js:45-57 | toggling flips the one key: an added key goes last and a removed key leaves the others in order; it keeps every other key, keeps the set duplicate-free, and persists the new list under the user's key and nowhere else |
| Watched.WatchedCount | movie/src/hooks/useWatched.js:59 | the count is the number of distinct watched keys |
| Watched.ToggleFlipsOnlyThatTitle | movie/src/hooks/useWatched.js:45-56 | after a toggle the title's watched flag is inverted and every other title's flag is unchanged |
| Watched.ToggleTwice | movie/src/hooks/useWatched.js:45-56 | two toggles of one title restore the set; when the title was unwatched they restore the list exactly, and when it was watched it moves to the end with the others in order |
| Watched.RemoveFromEnd | movie/src/hooks/useWatched.js:49-53 | adding an absent key and then deleting it gives the list back |
| Watched.ToggleCount | movie/src/hooks/useWatched.js:49-53 | a toggle raises the count by one for an unwatched title and lowers it by one for a watched one |
| Watched.SignedOut | movie/src/hooks/useWatched.js:16-19 | signed out the set is empty, nothing reads as watched, and toggling leaves storage unchanged |
| Watched.ReloadAfterToggle | movie/src/hooks/useWatched.js:20-36 | what a toggle persists is exactly what the next load for the same user reads back |
| Watched.IdentityIsolation | movie/src/hooks/useWatched.js:12-36 | one user's toggle never changes what another user loads |
| MovieCard.DisplayTitle | movie/src/components/MovieCard.jsx:4 | the heading is `title` when truthy, else `name`, and is truthy when either is |
| MovieCard.ReleaseDate | movie/src/components/MovieCard.jsx:5 | the date is `release_date` when truthy, else `first_air_date` |
| MovieCard.Year | movie/src/components/MovieCard.jsx:27-29 | the year is "N/A" without a date, else the date's prefix before its first '-' |
| MovieCard.YearOfIsoDate | movie/src/components/MovieCard.jsx:28 | a date "YYYY-MM-DD" shows as "YYYY" |
| MovieCard.PosterSrc | movie/src/components/MovieCard.jsx:9-10 | the placeholder is shown exactly when there is no poster path; otherwise the image base, '/', then the path |
| MovieCard.PosterSrcInjective | movie/src/components/MovieCard.jsx:9-10 | cards with poster paths show the same image exactly when the paths agree |
| MovieCard.RatingText | movie/src/components/MovieCard.jsx:20 | the rating reads "N/A" when the average is missing or 0, else the formatted average |
| Appwrite.UpdateSearchCount | movie/src/appwrite.js:14-42 | without a user or on failure nothing changes; else the first matching document counts one more and no other changes, or exactly one document with count 1 and the given term, movie id, poster and user is added |
| Appwrite.TotalCountIncrement | movie/src/appwrite.js:26-28 | incrementing one document raises the total count by one |
| Appwrite.RecordedSearchCounts | movie/src/appwrite.js:14-38 | a recorded search raises the total count by one and leaves a matching document with a positive count |
| Appwrite.GetTrendingMovies | movie/src/appwrite.js:44-60 | on success exactly 5 documents, or all of the scope when it holds at most 5, highest count first, only the user's when an id is given, none outranked by a left-out one; none on failure |
| Appwrite.GetWatchedItems | movie/src/appwrite.js:68-79 | on success exactly 500 of the user's documents, or all of them when there are at most 500, and only the user's; none on failure |
| Appwrite.AddWatchedItem | movie/src/appwrite.js:85-97 | on success exactly one document is appended whose id text reads back as the id; on failure nothing changes and the result is null |
| Appwrite.RemoveWatchedItem | movie/src/appwrite.js:103-119 | the answer is true exactly when the call succeeds and a match exists, and then only the first match is deleted; otherwise nothing changes |
| Appwrite.AddThenRemove | movie/src/appwrite.js:85-119 | adding a new item and then removing it restores the collection |
| App.Tag | movie/src/App.jsx:79-80 | every tagged item has the given category and is otherwise the response item |
| App.Combine | movie/src/App.jsx:79-84 | the merged list is a permutation of the tagged movies then series, of the summed length, in non-increasing popularity |
| App.Endpoints | movie/src/App.jsx:64-70 | a non-empty query selects the two search endpoints; an empty one selects movie discovery and top-rated series |
| App.ErrorText | movie/src/App.jsx:97 | the failure message is never empty: the API's status message, else the error message, else the fallback |
| App.FetchData | movie/src/App.jsx:59-104 | on failure the list is empty with the error's message; on success the list is the merge, the message is the not-found text exactly when it is empty, and a search is recorded exactly for a non-empty query with results, using the most popular result |
| App.Present | movie/src/App.jsx:86-94 | for a sorted merge, the not-found message and the search record follow emptiness and the query |
| App.RecordSearch | movie/src/App.jsx:92-94 | the search counts change exactly when a search is recorded for a signed-in user and the store accepts it; then the total rises by one and the term has a document for that user |
| App.NoSearchNoCount | movie/src/App.jsx:92-94 | an empty query, a failed fetch or an empty result leaves the search counts untouched |
| App.SearchIsCounted | movie/src/App.jsx:92-94 | a non-empty query with results, for a signed-in user and an accepting store, raises the total count by one and leaves a document for the query and user |
| App.Visible | movie/src/App.jsx:224 | "all" shows the list unchanged; any other filter shows exactly the items of that category, each as often as listed, in list order |
| App.FilterTagged | movie/src/App.jsx:224 | filtering tagged movies followed by tagged series keeps exactly the chosen category's list |
| App.CategoryTab | movie/src/App.jsx:79-84 | under the filter value "movie" the grid holds exactly the tagged movies by popularity, and under "tv" the tagged series |
| App.TiesKeepResponseOrder | movie/src/App.jsx:83-84 | among equal popularity the merge keeps the movies, then the series, each in response order |
| App.CardKey | movie/src/App.jsx:227 | a card's key is the same text as the title's watched key |
| App.CardKeysDistinct | movie/src/App.jsx:227 | card keys in the merged list are unique when ids are unique within each response |
| App.KeysSurvivePermutation | movie/src/App.jsx:83-84 | reordering keeps card keys distinct |
| App.ShownWatched | movie/src/App.jsx:230 | the `isWatched` prop a card gets is false when signed out; signed in it is true exactly when the card's key is in the set |
| App.ModalToggle | movie/src/App.jsx:244-245 | invoking the `onToggleWatched` prop does nothing when signed out (it is null); signed in it flips exactly that title |
| App.DropFailed | movie/src/App.jsx:146-153 | the shown list holds each successful detail fetch as often as it occurs and nothing else: all of them when all succeed, none when all fail |
| App.DropFailedAppend | movie/src/App.jsx:146-153 | dropping failures keeps request order: the successes of two batches are the first's followed by the second's |

## Left out

- Network and storage I/O: axios requests, the Appwrite SDK, `localStorage`. They become
  explicit inputs (responses, collections, a storage map, a success/failure `Call`).
- `JSON.parse` and `JSON.stringify`. A stored entry is modelled as already parsed into a list
  of string keys. Parsed JSON that is not an array of strings (numbers, a bare string, `null`)
  is not modelled.
- `encodeURIComponent`: the encoded query is an input of `App.Endpoints`.
- React state, effects, rendering, scrolling, timeouts and the sign-in provider. These are UI
  and plumbing. The user id and the signed-in flag are inputs.
- The detail modal (ExpandedCard.jsx): it fetches and renders, and its add-to-watchlist
  handler is a stub. It also expects a `movieId` prop where the page passes `mediaId`.
- The watched-only view's source list. The page reads `watchedItems` from the hook
  (App.jsx:42), which does not return it (useWatched.js:61). Only its `filter(Boolean)` step
  is modelled, as `App.DropFailed`.
- The page's first render, read as written. `watchedItems` is `undefined`, and the effect
  dependency list `[showWatchedOnly, watchedItems.length]` (App.jsx:163) is evaluated on every
  render. So the page throws before any effect runs, including the first `fetchData()`. The
  `App` members model the page as if `watchedItems` were a list.
- The props nobody reads or sets. The card takes only `media` and `onClick`, so it never reads
  `isWatched`. The detail view takes only `movieId` and `onClose`, so it reads neither
  `isWatched` nor `onToggleWatched`, and the toggle is never called. The navigation bar takes
  no props, so `mediaFilter` stays "all", `showWatchedOnly` stays false and `watchedCount` is
  never shown. The model takes the filter, the watched-only flag, the watched flag and the
  toggle handler as inputs.
- `Promise.all` parallelism and the `cancelled` flag of the watched-only fetch: concurrency.
- An optimistic add/revert against the remote store: the hook does not call the remote
  watched-item operations, so there is none to model.
- MovieCard.RatingText: `toFixed(1)` is an input function, because float formatting is not
  modelled. The average is a `real`, so `NaN` (also falsy) is not modelled.
- Float popularity: popularity is an integer. A `NaN` or missing popularity, which would make
  the comparator inconsistent, is not modelled.
- Appwrite.GetTrendingMovies: storage order is the tie-break among equal counts, which the
  store leaves unspecified.
- Appwrite.UpdateSearchCount: only an all-or-nothing failure is modelled. A failure between the
  list and the update or create call has the same effect, since either call changes nothing
  when it fails.
- Decimal.NatToString: ids are non-negative integers below 10^21. JavaScript numbers print in
  exponent form from 10^21 on and are not exact above 2^53; the metadata API's ids are far below both.
- Js.Interpolate: a field missing from a record altogether prints as "undefined" in a template
  literal. That case is not modelled, because the API sends an empty `poster_path` as `null`.
- The listing query's default page size in `removeWatchedItem` and `updateSearchCount` is not
  modelled. Only the first match is used, and it is always on the first page.

=== FILE: app.dfy ===
/** The page logic of `App`: fetching and merging movie and series results, the result
    grid's type filter, card keys, signed-in gating of the watched flag, and the
    watched-only view's dropping of failed detail fetches. */
module App {
  import opened Wrappers
  import opened Js
  import opened Seqs
  import opened Ordering
  import opened Tmdb
  import Watched
  import Appwrite
  import Decimal

  const ApiBase := "https://api.themoviedb.org/3"
  const NothingFound := "No movies or series found for your search."
  const FetchErrorFallback := "Error fetching data."
  const AllMedia := "all"

  /** Marks every result with its category; every other field is kept. */
  function Tag(results: seq<Media>, mediaType: string): (r: seq<Media>)
    ensures |r| == |results|
    ensures forall i :: 0 <= i < |r| ==> r[i].mediaType == mediaType
    ensures forall i :: 0 <= i < |r| ==> r[i].(mediaType := results[i].mediaType) == results[i]
  {
    seq(|results|, i requires 0 <= i < |results| => results[i].(mediaType := mediaType))
  }

  /** Movies and series together, most popular first; among equal popularity the
      input order (movies before series) is kept. */
  function Combine(movies: seq<Media>, series: seq<Media>): (r: seq<Media>)
    ensures multiset(r) == multiset(Tag(movies, MovieType) + Tag(series, TvType))
    ensures |r| == |movies| + |series|
    ensures SortedDesc(r, Popularity)
  {
    SortDesc(Tag(movies, MovieType) + Tag(series, TvType), Popularity)
  }

  /** The two request addresses; `encodedQuery` stands for `encodeURIComponent(query)`. */
  function Endpoints(query: string, encodedQuery: string): (r: (string, string))
    ensures query != "" ==>
      r.0 == ApiBase + "/search/movie?query=" + encodedQuery && r.1 == ApiBase + "/search/tv?query=" + encodedQuery
    ensures query == "" ==>
      r.0 == ApiBase + "/discover/movie?sort_by=popularity.desc" && r.1 == ApiBase + "/tv/top_rated?language=en-US&page=1"
  {
    if query != "" then
      (ApiBase + "/search/movie?query=" + encodedQuery, ApiBase + "/search/tv?query=" + encodedQuery)
    else
      (ApiBase + "/discover/movie?sort_by=popularity.desc", ApiBase + "/tv/top_rated?language=en-US&page=1")
  }

  /** Why a fetch failed: the API's `status_message`, if any, and the error's own message. */
  datatype FetchFailure = FetchFailure(statusMessage: Option<string>, message: Option<string>)

  /** What the two requests produced: both result lists, or a failure. */
  datatype Fetched = Loaded(movieResults: seq<Media>, seriesResults: seq<Media>) | Failed(failure: FetchFailure)

  /** A search to record: the query and its most popular result. */
  datatype SearchHit = SearchHit(term: string, top: Media)

  /** The state `fetchData` leaves behind, and the search-count update it requests. */
  datatype FetchOutcome = FetchOutcome(mediaList: seq<Media>, errorMessage: string, searchHit: Option<SearchHit>)

  /** `status_message || message || "Error fetching data."` */
  function ErrorText(f: FetchFailure): (r: string)
    ensures r != ""
    ensures Truthy(f.statusMessage) ==> r == f.statusMessage.value
    ensures !Truthy(f.statusMessage) && Truthy(f.message) ==> r == f.message.value
    ensures !Truthy(f.statusMessage) && !Truthy(f.message) ==> r == FetchErrorFallback
  {
    var m := Or(f.statusMessage, f.message);
    if Truthy(m) then m.value else FetchErrorFallback
  }

  /** One run of `fetchData` given what its requests return. */
  function FetchData(query: string, fetched: Fetched): (r: FetchOutcome)
    ensures fetched.Failed? ==>
      r.mediaList == [] && r.errorMessage == ErrorText(fetched.failure) && r.searchHit.None?
    ensures fetched.Loaded? ==> r.mediaList == Combine(fetched.movieResults, fetched.seriesResults)
    ensures fetched.Loaded? ==> (r.errorMessage == NothingFound <==> r.mediaList == [])
    ensures fetched.Loaded? && r.mediaList != [] ==> r.errorMessage == ""
    ensures r.searchHit.Some? <==> fetched.Loaded? && query != "" && r.mediaList != []
    ensures r.searchHit.Some? ==>
      r.searchHit.value.term == query && r.searchHit.value.top == r.mediaList[0]
      && forall i :: 0 <= i < |r.mediaList| ==> r.mediaList[i].popularity <= r.searchHit.value.top.popularity
  {
    match fetched
    case Failed(f) => FetchOutcome([], ErrorText(f), None)
    case Loaded(movies, series) => Present(query, Combine(movies, series))
  }

  /** The outcome for the merged results of a successful fetch. */
  function Present(query: string, combined: seq<Media>): (r: FetchOutcome)
    requires SortedDesc(combined, Popularity)
    ensures r.mediaList == combined
    ensures r.errorMessage == NothingFound <==> combined == []
    ensures combined != [] ==> r.errorMessage == ""
    ensures r.searchHit.Some? <==> query != "" && combined != []
    ensures r.searchHit.Some? ==>
      r.searchHit.value.term == query && r.searchHit.value.top == combined[0]
      && forall i :: 0 <= i < |combined| ==> combined[i].popularity <= r.searchHit.value.top.popularity
  {
    var message := if |combined| == 0 then NothingFound else "";
    if query != "" && |combined| > 0 then
      assert forall i :: 0 <= i < |combined| ==> Popularity(combined[i]) <= Popularity(combined[0]);
      FetchOutcome(combined, message, Some(SearchHit(query, combined[0])))
    else
      FetchOutcome(combined, message, None)
  }

  /** The search-count collection after `fetchData`: the requested update, if any, applied
      for the signed-in user. The counts change exactly when a search is recorded for a
      signed-in user and the store accepts it; then the total rises by one and the term has a
      document for that user. */
  function RecordSearch(outcome: FetchOutcome, db: seq<Appwrite.SearchDoc>, userId: Option<string>, newId: string, call: Appwrite.Call): (r: seq<Appwrite.SearchDoc>)
    ensures r == db <==> outcome.searchHit.None? || !Truthy(userId) || call.Fails?
    ensures outcome.searchHit.Some? && Truthy(userId) && call.Succeeds? ==>
      Appwrite.TotalCount(r) == Appwrite.TotalCount(db) + 1
      && FirstIndex(r, Appwrite.SearchMatch(outcome.searchHit.value.term, userId.value)).Some?
  {
    match outcome.searchHit
    case None => db
    case Some(hit) =>
      if !Truthy(userId) || call.Fails? then db
      else
        var p := Appwrite.SearchMatch(hit.term, userId.value);
        match FirstIndex(db, p)
        case Some(i) =>
          Appwrite.RecordedExisting(db, hit.term, hit.top, userId.value, newId, i);
          Appwrite.UpdateSearchCount(db, hit.term, hit.top, userId, newId, call)
        case None =>
          Appwrite.RecordedNew(db, hit.term, hit.top, userId.value, newId);
          Appwrite.UpdateSearchCount(db, hit.term, hit.top, userId, newId, call)
  }

  /** Browsing without a query, a failed fetch or an empty result never touches the search counts. */
  lemma NoSearchNoCount(query: string, fetched: Fetched, db: seq<Appwrite.SearchDoc>, userId: Option<string>, newId: string, call: Appwrite.Call)
    requires query == "" || fetched.Failed? || (fetched.movieResults == [] && fetched.seriesResults == [])
    ensures RecordSearch(FetchData(query, fetched), db, userId, newId, call) == db
  {
  }

  /** A signed-in search with results that the store accepts is counted: the total rises by
      one and the query has a document for the user. */
  lemma SearchIsCounted(query: string, movies: seq<Media>, series: seq<Media>, db: seq<Appwrite.SearchDoc>, user: string, newId: string)
    requires query != "" && user != "" && (movies != [] || series != [])
    ensures var r := RecordSearch(FetchData(query, Loaded(movies, series)), db, Some(user), newId, Appwrite.Succeeds);
      Appwrite.TotalCount(r) == Appwrite.TotalCount(db) + 1
      && FirstIndex(r, Appwrite.SearchMatch(query, user)).Some?
  {
    assert |Combine(movies, series)| > 0;
  }

  /** The grid's test: every item under "all", otherwise the items of that category. */
  function GridTest(mediaFilter: string): Media -> bool {
    (m: Media) => mediaFilter == AllMedia || m.mediaType == mediaFilter
  }

  /** The items the result grid shows for a filter, in list order. */
  function Visible(list: seq<Media>, mediaFilter: string): (r: seq<Media>)
    ensures mediaFilter == AllMedia ==> r == list
    ensures mediaFilter != AllMedia ==> forall i :: 0 <= i < |r| ==> r[i].mediaType == mediaFilter
    ensures mediaFilter != AllMedia ==>
      forall m :: multiset(r)[m] == if m.mediaType == mediaFilter then multiset(list)[m] else 0
    ensures IsSubsequence(r, list)
  {
    if mediaFilter == AllMedia then
      FilterAll(list, GridTest(mediaFilter));
      Filter(list, GridTest(mediaFilter))
    else
      Filter(list, GridTest(mediaFilter))
  }

  /** Under a category filter, the merged list shows exactly that category's results,
      most popular first. */
  lemma {:induction false} CategoryTab(movies: seq<Media>, series: seq<Media>)
    ensures Visible(Combine(movies, series), MovieType) == SortDesc(Tag(movies, MovieType), Popularity)
    ensures Visible(Combine(movies, series), TvType) == SortDesc(Tag(series, TvType), Popularity)
  {
    var tm := Tag(movies, MovieType);
    var ts := Tag(series, TvType);
    FilterTagged(tm, ts, MovieType);
    assert tm + [] == tm;
    FilterSort(tm + ts, Popularity, GridTest(MovieType));
    FilterTagged(tm, ts, TvType);
    assert [] + ts == ts;
    FilterSort(tm + ts, Popularity, GridTest(TvType));
  }

  /** Filtering two lists of one category each keeps exactly the list of the chosen category. */
  lemma {:induction false} FilterTagged(tm: seq<Media>, ts: seq<Media>, t: string)
    requires t != AllMedia
    requires forall i :: 0 <= i < |tm| ==> tm[i].mediaType == MovieType
    requires forall i :: 0 <= i < |ts| ==> ts[i].mediaType == TvType
    ensures Filter(tm + ts, GridTest(t)) ==
      (if t == MovieType then tm else []) + (if t == TvType then ts else [])
  {
    FilterAppend(tm, ts, GridTest(t));
    if t == MovieType { FilterAll(tm, GridTest(t)); } else { FilterNone(tm, GridTest(t)); }
    if t == TvType { FilterAll(ts, GridTest(t)); } else { FilterNone(ts, GridTest(t)); }
  }

  /** Among results of equal popularity the merged list keeps movies before series, each in
      the order its response gave. */
  lemma {:induction false} TiesKeepResponseOrder(movies: seq<Media>, series: seq<Media>, v: int)
    ensures Filter(Combine(movies, series), HasKey(Popularity, v))
      == Filter(Tag(movies, MovieType), HasKey(Popularity, v)) + Filter(Tag(series, TvType), HasKey(Popularity, v))
  {
    SortKeepsTies(Tag(movies, MovieType) + Tag(series, TvType), Popularity, v);
    FilterAppend(Tag(movies, MovieType), Tag(series, TvType), HasKey(Popularity, v));
  }

  /** The React key of a card, the same text as the item's watched key. */
  function CardKey(m: Media): (k: string)
    ensures k == Watched.MakeKey(m.mediaType, m.id)
  {
    m.mediaType + "-" + Decimal.NatToString(m.id)
  }

  /** The `isWatched` prop the page passes to a card and to the detail view: false while signed
      out. Neither component reads it. */
  function ShownWatched(signedIn: bool, st: Watched.HookState, m: Media): (r: bool)
    ensures !signedIn ==> !r
    ensures signedIn ==> (r <==> CardKey(m) in Elements(st.watched))
  {
    signedIn && Watched.IsWatched(st, m.mediaType, m.id)
  }

  /** Invoking the `onToggleWatched` prop the page passes to the detail view: signed out it is
      null and nothing happens; signed in it is the hook's toggle. The detail view never calls it. */
  function ModalToggle(signedIn: bool, st: Watched.HookState, storage: Watched.Storage, m: Media): (r: (Watched.HookState, Watched.Storage))
    ensures !signedIn ==> r == (st, storage)
    ensures signedIn ==> (CardKey(m) in r.0.watched <==> CardKey(m) !in st.watched)
    ensures signedIn ==> forall k :: k != CardKey(m) ==> (k in r.0.watched <==> k in st.watched)
  {
    if signedIn then Watched.Toggle(st, storage, m.mediaType, m.id) else (st, storage)
  }

  /** `results.filter(Boolean)`: the detail fetches that succeeded, in request order. */
  function DropFailed(results: seq<Option<Media>>): (r: seq<Media>)
    ensures |r| <= |results|
    ensures forall m :: multiset(r)[m] == multiset(results)[Some(m)]
    ensures (forall i :: 0 <= i < |results| ==> results[i].Some?) ==> |r| == |results|
    ensures (forall i :: 0 <= i < |results| ==> results[i].None?) ==> r == []
    decreases |results|
  {
    if |results| == 0 then []
    else
      assert results == [results[0]] + results[1..];
      var rest := DropFailed(results[1..]);
      match results[0]
      case None => rest
      case Some(m) => [m] + rest
  }

  /** Dropping failures keeps request order: the shown list of two batches is the first
      batch's successes followed by the second's. */
  lemma {:induction false} DropFailedAppend(a: seq<Option<Media>>, b: seq<Option<Media>>)
    ensures DropFailed(a + b) == DropFailed(a) + DropFailed(b)
    decreases |a|
  {
    if |a| == 0 {
      assert a + b == b;
    } else {
      assert (a + b)[0] == a[0];
      assert (a + b)[1..] == a[1..] + b;
      DropFailedAppend(a[1..], b);
    }
  }

  /** Each list's items have distinct ids. */
  predicate DistinctIds(xs: seq<Media>) {
    forall i, j :: 0 <= i < j < |xs| ==> xs[i].id != xs[j].id
  }

  /** Card keys are unique in the merged list when ids are unique within each response. */
  lemma CardKeysDistinct(movies: seq<Media>, series: seq<Media>)
    requires DistinctIds(movies) && DistinctIds(series)
    ensures var r := Combine(movies, series);
      forall i, j :: 0 <= i < j < |r| ==> CardKey(r[i]) != CardKey(r[j])
  {
    TaggedKeysDistinct(movies, series);
    KeysSurvivePermutation(Tag(movies, MovieType) + Tag(series, TvType), Combine(movies, series));
  }

  /** Before the sort: tagged movies and tagged series have pairwise distinct keys. */
  lemma TaggedKeysDistinct(movies: seq<Media>, series: seq<Media>)
    requires DistinctIds(movies) && DistinctIds(series)
    ensures var xs := Tag(movies, MovieType) + Tag(series, TvType);
      forall i, j :: 0 <= i < j < |xs| ==> CardKey(xs[i]) != CardKey(xs[j])
  {
    var tm := Tag(movies, MovieType);
    var ts := Tag(series, TvType);
    var xs := tm + ts;
    forall i, j | 0 <= i < j < |xs| ensures CardKey(xs[i]) != CardKey(xs[j]) {
      if j < |tm| {
        assert xs[i] == tm[i] && xs[j] == tm[j];
        assert tm[i].id == movies[i].id && tm[j].id == movies[j].id;
      } else if i >= |tm| {
        assert xs[i] == ts[i - |tm|] && xs[j] == ts[j - |tm|];
        assert ts[i - |tm|].id == series[i - |tm|].id && ts[j - |tm|].id == series[j - |tm|].id;
      } else {
        assert xs[i] == tm[i] && xs[j] == ts[j - |tm|];
      }
      KeysDiffer(xs[i], xs[j]);
    }
  }

  /** Titles of a '-'-free type that differ in type or id have different card keys. */
  lemma KeysDiffer(x: Media, y: Media)
    requires '-' !in x.mediaType && '-' !in y.mediaType
    requires x.mediaType != y.mediaType || x.id != y.id
    ensures CardKey(x) != CardKey(y)
  {
    Watched.MakeKeyInjective(x.mediaType, x.id, y.mediaType, y.id);
  }

  /** Distinct card keys survive any reordering. */
  lemma KeysSurvivePermutation(xs: seq<Media>, ys: seq<Media>)
    requires multiset(xs) == multiset(ys)
    requires forall i, j :: 0 <= i < j < |xs| ==> CardKey(xs[i]) != CardKey(xs[j])
    ensures forall i, j :: 0 <= i < j < |ys| ==> CardKey(ys[i]) != CardKey(ys[j])
  {
    forall i, j | 0 <= i < j < |ys| ensures CardKey(ys[i]) != CardKey(ys[j]) {
      var a, b := SeparatePositions(xs, ys, i, j);
      if a < b {
        assert CardKey(xs[a]) != CardKey(xs[b]);
      } else {
        assert CardKey(xs[b]) != CardKey(xs[a]);
      }
    }
  }

  /** Two positions of a reordering come from two positions of the original. */
  lemma SeparatePositions(xs: seq<Media>, ys: seq<Media>, i: nat, j: nat) returns (a: nat, b: nat)
    requires multiset(xs) == multiset(ys)
    requires i < j < |ys|
    ensures a < |xs| && b < |xs| && a != b && xs[a] == ys[i] && xs[b] == ys[j]
  {
    if ys[i] == ys[j] {
      TwiceCounted(ys, i, j);
      a, b := TwiceOccurs(xs, ys[i]);
    } else {
      assert ys[i] in multiset(xs) && ys[j] in multiset(xs);
      a :| 0 <= a < |xs| && xs[a] == ys[i];
      b :| 0 <= b < |xs| && xs[b] == ys[j];
    }
  }

  /** A value at two positions is counted at least twice. */
  lemma TwiceCounted<T>(s: seq<T>, i: nat, j: nat)
    requires i < j < |s| && s[i] == s[j]
    ensures multiset(s)[s[i]] >= 2
  {
    assert s == s[..j] + [s[j]] + s[j + 1..];
    assert s[i] in s[..j];
  }

  /** A value counted at least twice sits at two positions. */
  lemma TwiceOccurs<T>(xs: seq<T>, v: T) returns (a: nat, b: nat)
    requires multiset(xs)[v] >= 2
    ensures a < |xs| && b < |xs| && a != b && xs[a] == v && xs[b] == v
  {
    assert v in multiset(xs);
    a :| 0 <= a < |xs| && xs[a] == v;
    var rest := xs[..a] + xs[a + 1..];
    assert xs == xs[..a] + [xs[a]] + xs[a + 1..];
    assert multiset(rest)[v] >= 1;
    var c :| 0 <= c < |rest| && rest[c] == v;
    if c < a {
      b := c;
    } else {
      b := c + 1;
    }
  }
}

=== FILE: appwrite.dfy ===
/** The remote document collections (`appwrite.js`): search counts and watched items.
    A collection is the sequence of its documents in storage order, the order an
    unordered query lists them in. Every remote call takes a `Call` saying whether it
    goes through; a call that fails leaves the collection as it was. */
module Appwrite {
  import opened Wrappers
  import opened Js
  import opened Seqs
  import opened Ordering
  import opened Tmdb
  import Decimal

  datatype Call = Succeeds | Fails

  /** One search-count document. */
  datatype SearchDoc = SearchDoc(docId: string, searchTerm: string, count: int, movieId: nat, posterUrl: string, userId: string)

  /** One watched-item document; `mediaId` is stored as text. */
  datatype WatchedDoc = WatchedDoc(docId: string, userId: string, mediaType: string, mediaId: string)

  const TrendingLimit := 5
  const WatchedLimit := 500

  function Count(d: SearchDoc): int {
    d.count
  }

  predicate IsSearch(d: SearchDoc, term: string, user: string) {
    d.searchTerm == term && d.userId == user
  }

  function SearchMatch(term: string, user: string): SearchDoc -> bool {
    d => IsSearch(d, term, user)
  }

  /** The total of all search counts. */
  function TotalCount(db: seq<SearchDoc>): int
    decreases |db|
  {
    if |db| == 0 then 0 else db[0].count + TotalCount(db[1..])
  }

  /** Records a search for a signed-in user: the first document for the same term and user
      counts one more; without one, a new document with count 1 is added. */
  function UpdateSearchCount(db: seq<SearchDoc>, term: string, movie: Media, userId: Option<string>, newId: string, call: Call): (r: seq<SearchDoc>)
    ensures !Truthy(userId) || call.Fails? ==> r == db
    ensures Truthy(userId) && call.Succeeds? ==> match FirstIndex(db, SearchMatch(term, userId.value))
      case Some(i) =>
        |r| == |db| && r[i] == db[i].(count := db[i].count + 1)
        && forall j :: 0 <= j < |db| && j != i ==> r[j] == db[j]
      case None =>
        |r| == |db| + 1 && r[..|db|] == db
        && r[|db|] == SearchDoc(newId, term, 1, movie.id, ImageBase + Interpolate(movie.posterPath), userId.value)
  {
    if !Truthy(userId) || call.Fails? then db
    else
      match FirstIndex(db, SearchMatch(term, userId.value))
      case Some(i) => db[i := db[i].(count := db[i].count + 1)]
      case None => db + [SearchDoc(newId, term, 1, movie.id, ImageBase + Interpolate(movie.posterPath), userId.value)]
  }

  lemma {:induction false} TotalCountAppend(a: seq<SearchDoc>, b: seq<SearchDoc>)
    ensures TotalCount(a + b) == TotalCount(a) + TotalCount(b)
    decreases |a|
  {
    if |a| > 0 {
      assert (a + b)[1..] == a[1..] + b;
      TotalCountAppend(a[1..], b);
    } else {
      assert a + b == b;
    }
  }

  lemma {:induction false} TotalCountIncrement(db: seq<SearchDoc>, i: nat)
    requires i < |db|
    ensures TotalCount(db[i := db[i].(count := db[i].count + 1)]) == TotalCount(db) + 1
    decreases i
  {
    var r := db[i := db[i].(count := db[i].count + 1)];
    if i > 0 {
      assert r[1..] == db[1..][i - 1 := db[i].(count := db[i].count + 1)];
      TotalCountIncrement(db[1..], i - 1);
    } else {
      assert r[1..] == db[1..];
    }
  }

  /** A recorded search raises the total count by exactly one, and afterwards the term has a
      document for the user with a positive count, which the next search for it will increment. */
  lemma {:induction false} RecordedSearchCounts(db: seq<SearchDoc>, term: string, movie: Media, user: string, newId: string)
    requires user != ""
    requires forall j :: 0 <= j < |db| ==> db[j].count >= 0
    ensures var r := UpdateSearchCount(db, term, movie, Some(user), newId, Succeeds);
      TotalCount(r) == TotalCount(db) + 1
      && FirstIndex(r, SearchMatch(term, user)).Some?
      && r[FirstIndex(r, SearchMatch(term, user)).value].count >= 1
  {
    match FirstIndex(db, SearchMatch(term, user))
    case Some(i) => RecordedExisting(db, term, movie, user, newId, i);
    case None => RecordedNew(db, term, movie, user, newId);
  }

  lemma {:induction false} RecordedExisting(db: seq<SearchDoc>, term: string, movie: Media, user: string, newId: string, i: nat)
    requires user != ""
    requires FirstIndex(db, SearchMatch(term, user)) == Some(i)
    ensures var r := UpdateSearchCount(db, term, movie, Some(user), newId, Succeeds);
      TotalCount(r) == TotalCount(db) + 1 && FirstIndex(r, SearchMatch(term, user)) == Some(i)
      && r[i].count == db[i].count + 1
  {
    var r := UpdateSearchCount(db, term, movie, Some(user), newId, Succeeds);
    var p := SearchMatch(term, user);
    TotalCountIncrement(db, i);
    assert p(r[i]);
    FirstIndexAt(r, p, i);
  }

  lemma {:induction false} RecordedNew(db: seq<SearchDoc>, term: string, movie: Media, user: string, newId: string)
    requires user != ""
    requires FirstIndex(db, SearchMatch(term, user)).None?
    ensures var r := UpdateSearchCount(db, term, movie, Some(user), newId, Succeeds);
      TotalCount(r) == TotalCount(db) + 1 && FirstIndex(r, SearchMatch(term, user)) == Some(|db|) && r[|db|].count == 1
  {
    var r := UpdateSearchCount(db, term, movie, Some(user), newId, Succeeds);
    var p := SearchMatch(term, user);
    assert r == db + [r[|db|]];
    TotalCountAppend(db, [r[|db|]]);
    assert p(r[|db|]);
    FirstIndexAt(r, p, |db|);
  }

  /** The documents in scope for the suggestions: one user's when an id is given, else all. */
  function TrendingScope(db: seq<SearchDoc>, userId: Option<string>): seq<SearchDoc> {
    if Truthy(userId) then Filter(db, (d: SearchDoc) => d.userId == userId.value) else db
  }

  lemma ScopeIsUsers(db: seq<SearchDoc>, userId: Option<string>)
    ensures Truthy(userId) ==> forall d :: d in multiset(TrendingScope(db, userId)) ==> d.userId == userId.value
  {
  }

  /** The suggested searches: at most five documents of the scope with the highest counts,
      highest first; nothing when the call fails. */
  function GetTrendingMovies(db: seq<SearchDoc>, userId: Option<string>, call: Call): (r: seq<SearchDoc>)
    ensures call.Fails? ==> r == []
    ensures |r| <= TrendingLimit
    ensures call.Succeeds? ==>
      |r| == if |TrendingScope(db, userId)| <= TrendingLimit then |TrendingScope(db, userId)| else TrendingLimit
    ensures SortedDesc(r, Count)
    ensures Truthy(userId) ==> forall i :: 0 <= i < |r| ==> r[i].userId == userId.value
    ensures multiset(r) <= multiset(TrendingScope(db, userId))
    ensures call.Succeeds? && |TrendingScope(db, userId)| <= TrendingLimit ==>
      multiset(r) == multiset(TrendingScope(db, userId))
    ensures call.Succeeds? ==> forall d, i :: d in multiset(TrendingScope(db, userId)) - multiset(r) && 0 <= i < |r| ==>
      d.count <= r[i].count
  {
    if call.Fails? then []
    else
      var scope := TrendingScope(db, userId);
      var r := TopN(scope, Count, TrendingLimit);
      ScopeIsUsers(db, userId);
      assert forall i :: 0 <= i < |r| ==> r[i] in multiset(scope);
      r
  }

  predicate OwnedBy(d: WatchedDoc, user: string) {
    d.userId == user
  }

  function Owner(user: string): WatchedDoc -> bool {
    d => OwnedBy(d, user)
  }

  /** A user's watched items: the first 500 of their documents; nothing when the call fails. */
  function GetWatchedItems(db: seq<WatchedDoc>, userId: string, call: Call): (r: seq<WatchedDoc>)
    ensures call.Fails? ==> r == []
    ensures |r| <= WatchedLimit
    ensures call.Succeeds? ==>
      |r| == if |Filter(db, Owner(userId))| <= WatchedLimit then |Filter(db, Owner(userId))| else WatchedLimit
    ensures forall i :: 0 <= i < |r| ==> r[i].userId == userId
    ensures multiset(r) <= multiset(db)
    ensures call.Succeeds? && |Filter(db, Owner(userId))| <= WatchedLimit ==>
      forall d :: multiset(r)[d] == if d.userId == userId then multiset(db)[d] else 0
  {
    if call.Fails? then []
    else
      var mine := Filter(db, Owner(userId));
      if |mine| <= WatchedLimit then mine
      else
        assert mine == mine[..WatchedLimit] + mine[WatchedLimit..];
        assert multiset(mine[..WatchedLimit]) <= multiset(mine);
        mine[..WatchedLimit]
  }

  /** Adds a watched item, storing the id as its decimal text; the created document, or
      nothing when the call fails. */
  function AddWatchedItem(db: seq<WatchedDoc>, userId: string, mediaType: string, mediaId: nat, newId: string, call: Call): (r: (seq<WatchedDoc>, Option<WatchedDoc>))
    ensures call.Fails? ==> r == (db, None)
    ensures call.Succeeds? ==> r.1.Some? && r.0 == db + [r.1.value]
    ensures call.Succeeds? ==>
      var d := r.1.value;
      d.docId == newId && d.userId == userId && d.mediaType == mediaType
      && Decimal.AllDigits(d.mediaId) && Decimal.ParseDigits(d.mediaId) == mediaId
  {
    if call.Fails? then (db, None)
    else
      var d := WatchedDoc(newId, userId, mediaType, Decimal.NatToString(mediaId));
      Decimal.ParseNatToString(mediaId);
      (db + [d], Some(d))
  }

  predicate IsItem(d: WatchedDoc, user: string, mediaType: string, mediaId: nat) {
    d.userId == user && d.mediaType == mediaType && d.mediaId == Decimal.NatToString(mediaId)
  }

  function ItemMatch(user: string, mediaType: string, mediaId: nat): WatchedDoc -> bool {
    d => IsItem(d, user, mediaType, mediaId)
  }

  /** Whether the collection holds a document for the user, type and id. */
  predicate HasItem(db: seq<WatchedDoc>, user: string, mediaType: string, mediaId: nat) {
    exists j :: 0 <= j < |db| && IsItem(db[j], user, mediaType, mediaId)
  }

  /** Removes a watched item: finds the first document for the user, type and id and deletes
      it, answering true; answers false, changing nothing, when none matches or the call fails. */
  function RemoveWatchedItem(db: seq<WatchedDoc>, userId: string, mediaType: string, mediaId: nat, call: Call): (r: (seq<WatchedDoc>, bool))
    ensures r.1 <==> call.Succeeds? && HasItem(db, userId, mediaType, mediaId)
    ensures !r.1 ==> r.0 == db
    ensures r.1 ==> exists i :: (0 <= i < |db| && IsItem(db[i], userId, mediaType, mediaId)
      && (forall j :: 0 <= j < i ==> !IsItem(db[j], userId, mediaType, mediaId))
      && r.0 == db[..i] + db[i + 1..])
  {
    if call.Fails? then (db, false)
    else
      match FirstIndex(db, ItemMatch(userId, mediaType, mediaId))
      case None =>
        assert forall j :: 0 <= j < |db| ==> !ItemMatch(userId, mediaType, mediaId)(db[j]);
        (db, false)
      case Some(i) =>
        assert ItemMatch(userId, mediaType, mediaId)(db[i]);
        assert IsItem(db[i], userId, mediaType, mediaId);
        assert forall j :: 0 <= j < i ==> !ItemMatch(userId, mediaType, mediaId)(db[j]);
        assert HasItem(db, userId, mediaType, mediaId);
        (db[..i] + db[i + 1..], true)
  }

  /** Adding an item the user did not have and then removing it restores the collection. */
  lemma AddThenRemove(db: seq<WatchedDoc>, user: string, mediaType: string, mediaId: nat, newId: string)
    requires forall j :: 0 <= j < |db| ==> !IsItem(db[j], user, mediaType, mediaId)
    ensures var added := AddWatchedItem(db, user, mediaType, mediaId, newId, Succeeds).0;
      RemoveWatchedItem(added, user, mediaType, mediaId, Succeeds) == (db, true)
  {
    var added := AddWatchedItem(db, user, mediaType, mediaId, newId, Succeeds).0;
    var p := ItemMatch(user, mediaType, mediaId);
    assert IsItem(added[|db|], user, mediaType, mediaId);
    assert forall j :: 0 <= j < |db| ==> added[j] == db[j] && !p(added[j]);
    assert FirstIndex(added, p) == Some(|db|);
    assert added[..|db|] + added[|db| + 1..] == db;
  }
}

=== FILE: decimal.dfy ===
/** Decimal numerals: JavaScript's `String(n)` (and `${n}`) for a non-negative integer id. */
module Decimal {

  predicate IsDigit(c: char) {
    '0' <= c <= '9'
  }

  predicate AllDigits(s: string) {
    forall i :: 0 <= i < |s| ==> IsDigit(s[i])
  }

  function DigitChar(d: nat): (c: char)
    requires d < 10
    ensures IsDigit(c)
  {
    (48 + d) as char
  }

  function DigitValue(c: char): (d: nat)
    requires IsDigit(c)
    ensures d < 10
  {
    c as int - 48
  }

  /** The decimal numeral of `n`: non-empty, only digits, and no leading zero. */
  function NatToString(n: nat): (r: string)
    ensures |r| >= 1
    ensures AllDigits(r)
    ensures r[0] == '0' <==> n == 0
    ensures r[0] == '0' ==> |r| == 1
    decreases n
  {
    if n < 10 then [DigitChar(n)] else NatToString(n / 10) + [DigitChar(n % 10)]
  }

  /** The value of a string of digits, read most significant digit first. */
  function ParseDigits(s: string): nat
    requires AllDigits(s)
    decreases |s|
  {
    if |s| == 0 then 0 else 10 * ParseDigits(s[..|s| - 1]) + DigitValue(s[|s| - 1])
  }

  /** Reading back the numeral gives the number. */
  lemma {:induction false} ParseNatToString(n: nat)
    ensures ParseDigits(NatToString(n)) == n
    decreases n
  {
    var s := NatToString(n);
    if n >= 10 {
      ParseNatToString(n / 10);
      assert s[..|s| - 1] == NatToString(n / 10);
    }
  }

  /** Distinct ids have distinct numerals. */
  lemma NatToStringInjective(a: nat, b: nat)
    ensures NatToString(a) == NatToString(b) ==> a == b
  {
    ParseNatToString(a);
    ParseNatToString(b);
  }
}

=== FILE: media.dfy ===
/** A result record of the metadata API, as the client uses it. Movies carry `title` and
    `release_date`, series carry `name` and `first_air_date`; a field the record lacks, or
    that the API sends as JSON `null` (as it sends an empty `poster_path`), is `None`. */
module Tmdb {
  import opened Wrappers

  datatype Media = Media(
    id: nat,
    title: Option<string>,
    name: Option<string>,
    releaseDate: Option<string>,
    firstAirDate: Option<string>,
    posterPath: Option<string>,
    voteAverage: Option<real>,
    popularity: int,
    mediaType: string)

  const MovieType := "movie"
  const TvType := "tv"

  /** Base address of 500-pixel-wide poster images. */
  const ImageBase := "https://image.tmdb.org/t/p/w500"

  function Popularity(m: Media): int {
    m.popularity
  }
}

/** The field fallbacks of the result card (`MovieCard`). */
module MovieCard {
  import opened Wrappers
  import opened Js
  import opened Seqs
  import opened Tmdb

  const NotAvailable := "N/A"
  const PosterPlaceholder := "/No-Poster.png"

  /** The heading: `title || name`. */
  function DisplayTitle(m: Media): (r: Option<string>)
    ensures Truthy(m.title) ==> r == m.title
    ensures !Truthy(m.title) ==> r == m.name
    ensures Truthy(r) <==> Truthy(m.title) || Truthy(m.name)
  {
    Or(m.title, m.name)
  }

  /** The date the card shows: `release_date || first_air_date`. */
  function ReleaseDate(m: Media): (r: Option<string>)
    ensures Truthy(m.releaseDate) ==> r == m.releaseDate
    ensures !Truthy(m.releaseDate) ==> r == m.firstAirDate
    ensures Truthy(r) <==> Truthy(m.releaseDate) || Truthy(m.firstAirDate)
  {
    Or(m.releaseDate, m.firstAirDate)
  }

  /** The year: the part of the date before its first '-', or "N/A" without a date. */
  function Year(m: Media): (r: string)
    ensures !Truthy(ReleaseDate(m)) ==> r == NotAvailable
    ensures Truthy(ReleaseDate(m)) ==>
      var d := ReleaseDate(m).value;
      |r| <= |d| && r == d[..|r|] && '-' !in r && (|r| == |d| || d[|r|] == '-')
  {
    var d := ReleaseDate(m);
    if Truthy(d) then PrefixBefore(d.value, '-') else NotAvailable
  }

  /** An ISO date "YYYY-MM-DD" shows as its year. */
  lemma YearOfIsoDate(m: Media, year: string, rest: string)
    requires '-' !in year && year != ""
    requires ReleaseDate(m) == Some(year + "-" + rest)
    ensures Year(m) == year
  {
    PrefixBeforeJoin(year, '-', rest);
  }

  /** The poster image: the poster path under the image base when there is one, else the placeholder. */
  function PosterSrc(m: Media): (r: string)
    ensures r == PosterPlaceholder <==> !Truthy(m.posterPath)
    ensures Truthy(m.posterPath) ==>
      |r| > |ImageBase| + 1 && r[..|ImageBase| + 1] == ImageBase + "/" && r[|ImageBase| + 1..] == m.posterPath.value
  {
    if Truthy(m.posterPath) then
      var r := ImageBase + "/" + m.posterPath.value;
      assert r[0] != PosterPlaceholder[0];
      r
    else
      PosterPlaceholder
  }

  /** Two cards with poster paths show the same image exactly when the paths are equal. */
  lemma PosterSrcInjective(a: Media, b: Media)
    requires Truthy(a.posterPath) && Truthy(b.posterPath)
    ensures PosterSrc(a) == PosterSrc(b) <==> a.posterPath == b.posterPath
  {
  }

  /** Whether a rating is shown: `vote_average` is truthy, so missing and 0 both read "N/A". */
  predicate HasRating(m: Media) {
    m.voteAverage.Some? && m.voteAverage.value != 0.0
  }

  /** The rating text; `fixed1` stands for `toFixed(1)`, whose number formatting is not modelled. */
  function RatingText(m: Media, fixed1: real -> string): (r: string)
    ensures !HasRating(m) ==> r == NotAvailable
    ensures HasRating(m) ==> r == fixed1(m.voteAverage.value)
  {
    if HasRating(m) then fixed1(m.voteAverage.value) else NotAvailable
  }
}

=== FILE: ordering.dfy ===
/** Descending stable sort by an integer key: `xs.sort((a, b) => key(b) - key(a))`,
    which ECMAScript 2019 and later require to be stable. */
module Ordering {
  import opened Seqs

  /** Keys never increase along the sequence. */
  predicate SortedDesc<T>(s: seq<T>, key: T -> int) {
    forall i, j :: 0 <= i < j < |s| ==> key(s[i]) >= key(s[j])
  }

  /** Places `x` before the first element whose key is not greater than its own. */
  function Insert<T(==,!new)>(x: T, s: seq<T>, key: T -> int): (r: seq<T>)
    ensures multiset(r) == multiset(s) + multiset{x}
    decreases |s|
  {
    if |s| == 0 then [x]
    else if key(s[0]) <= key(x) then [x] + s
    else
      assert s == [s[0]] + s[1..];
      [s[0]] + Insert(x, s[1..], key)
  }

  /** Inserting into a sorted list keeps it sorted. */
  lemma {:induction false} InsertSorted<T(!new)>(x: T, s: seq<T>, key: T -> int)
    requires SortedDesc(s, key)
    ensures SortedDesc(Insert(x, s, key), key)
    decreases |s|
  {
    if |s| > 0 && key(s[0]) > key(x) {
      var tail := Insert(x, s[1..], key);
      InsertSorted(x, s[1..], key);
      var r := [s[0]] + tail;
      forall j | 0 <= j < |tail| ensures key(s[0]) >= key(tail[j]) {
        assert tail[j] in multiset(tail);
        if tail[j] != x {
          assert tail[j] in multiset(s[1..]);
          var k :| 0 <= k < |s[1..]| && s[1..][k] == tail[j];
          assert s[k + 1] == tail[j];
        }
      }
      assert forall i, j :: 0 < i < j < |r| ==> r[i] == tail[i - 1] && r[j] == tail[j - 1];
    }
  }

  /** The list reordered by non-increasing key; equal keys keep their input order. */
  function SortDesc<T(==,!new)>(xs: seq<T>, key: T -> int): (r: seq<T>)
    ensures multiset(r) == multiset(xs)
    ensures |r| == |xs|
    ensures SortedDesc(r, key)
    decreases |xs|
  {
    if |xs| == 0 then []
    else
      assert xs == [xs[0]] + xs[1..];
      var sorted := SortDesc(xs[1..], key);
      InsertSorted(xs[0], sorted, key);
      var r := Insert(xs[0], sorted, key);
      assert |r| == |multiset(r)|;
      r
  }

  /** Selects the elements whose key is `v`. */
  function HasKey<T>(key: T -> int, v: int): T -> bool {
    y => key(y) == v
  }

  /** In a sorted list every element's key is at most the first one's. */
  lemma HeadIsMax<T>(s: seq<T>, key: T -> int, z: T)
    requires SortedDesc(s, key) && |s| > 0 && z in s
    ensures key(z) <= key(s[0])
  {
  }

  /** Inserting in front of a sorted list whose head does not outrank `x`. */
  lemma {:induction false} FilterInsertFront<T(!new)>(x: T, s: seq<T>, key: T -> int, p: T -> bool)
    requires SortedDesc(s, key) && |s| > 0 && key(s[0]) <= key(x)
    ensures Filter(Insert(x, s, key), p) == if p(x) then Insert(x, Filter(s, p), key) else Filter(s, p)
  {
    var f := Filter(s, p);
    assert Insert(x, s, key) == [x] + s;
    assert ([x] + s)[1..] == s;
    if p(x) && |f| > 0 {
      assert f[0] in multiset(f);
      assert f[0] in s;
      HeadIsMax(s, key, f[0]);
    }
  }

  /** Filtering after inserting is inserting into the filtered list. */
  lemma {:induction false} FilterInsert<T(!new)>(x: T, s: seq<T>, key: T -> int, p: T -> bool)
    requires SortedDesc(s, key)
    ensures Filter(Insert(x, s, key), p) == if p(x) then Insert(x, Filter(s, p), key) else Filter(s, p)
    decreases |s|
  {
    if |s| == 0 {
      assert Insert(x, s, key) == [x];
    } else if key(s[0]) <= key(x) {
      FilterInsertFront(x, s, key, p);
    } else {
      FilterInsert(x, s[1..], key, p);
      FilterInsertBehind(x, s, key, p);
    }
  }

  /** Inserting behind a head that outranks `x`, given the fact for the rest of the list. */
  lemma {:induction false} FilterInsertBehind<T(!new)>(x: T, s: seq<T>, key: T -> int, p: T -> bool)
    requires |s| > 0 && key(s[0]) > key(x)
    requires Filter(Insert(x, s[1..], key), p) == if p(x) then Insert(x, Filter(s[1..], p), key) else Filter(s[1..], p)
    ensures Filter(Insert(x, s, key), p) == if p(x) then Insert(x, Filter(s, p), key) else Filter(s, p)
  {
    var tail := Insert(x, s[1..], key);
    var f := Filter(s[1..], p);
    assert Insert(x, s, key) == [s[0]] + tail;
    assert ([s[0]] + tail)[1..] == tail;
    if p(s[0]) {
      assert Filter([s[0]] + tail, p) == [s[0]] + Filter(tail, p);
      assert Filter(s, p) == [s[0]] + f;
      if p(x) {
        assert ([s[0]] + f)[1..] == f;
        assert Insert(x, [s[0]] + f, key) == [s[0]] + Insert(x, f, key);
      }
    } else {
      assert Filter([s[0]] + tail, p) == Filter(tail, p);
      assert Filter(s, p) == f;
    }
  }

  /** Sorting commutes with filtering: the sorted list restricted to `p` is the
      restriction to `p` sorted. */
  lemma {:induction false} FilterSort<T(!new)>(xs: seq<T>, key: T -> int, p: T -> bool)
    ensures Filter(SortDesc(xs, key), p) == SortDesc(Filter(xs, p), key)
    decreases |xs|
  {
    if |xs| > 0 {
      FilterSort(xs[1..], key, p);
      FilterInsert(xs[0], SortDesc(xs[1..], key), key, p);
      if p(xs[0]) {
        var f := Filter(xs[1..], p);
        assert Filter(xs, p) == [xs[0]] + f;
        assert ([xs[0]] + f)[1..] == f;
      }
    }
  }

  /** A list whose keys are all equal is already in sorted order. */
  lemma {:induction false} SortEqualKeys<T(!new)>(xs: seq<T>, key: T -> int, v: int)
    requires forall i :: 0 <= i < |xs| ==> key(xs[i]) == v
    ensures SortDesc(xs, key) == xs
    decreases |xs|
  {
    if |xs| > 0 {
      SortEqualKeys(xs[1..], key, v);
      assert xs == [xs[0]] + xs[1..];
    }
  }

  /** Stability: the elements sharing one key appear in the sorted list in their input order. */
  lemma {:induction false} SortKeepsTies<T(!new)>(xs: seq<T>, key: T -> int, v: int)
    ensures Filter(SortDesc(xs, key), HasKey(key, v)) == Filter(xs, HasKey(key, v))
  {
    var f := Filter(xs, HasKey(key, v));
    FilterSort(xs, key, HasKey(key, v));
    assert forall i :: 0 <= i < |f| ==> key(f[i]) == v;
    SortEqualKeys(f, key, v);
  }

  /** The first `n` elements of the sorted list: the `n` highest-keyed elements, highest first. */
  function TopN<T(==,!new)>(xs: seq<T>, key: T -> int, n: nat): (r: seq<T>)
    ensures |r| == if |xs| <= n then |xs| else n
    ensures SortedDesc(r, key)
    ensures multiset(r) <= multiset(xs)
    ensures |xs| <= n ==> multiset(r) == multiset(xs)
    ensures forall d, i :: d in multiset(xs) - multiset(r) && 0 <= i < |r| ==> key(d) <= key(r[i])
  {
    var sorted := SortDesc(xs, key);
    var k := if |sorted| <= n then |sorted| else n;
    TopIsPrefix(sorted, key, k);
    assert |xs| <= n ==> sorted[..k] == sorted;
    sorted[..k]
  }

  /** Cutting a sorted list leaves nothing behind that outranks what was kept. */
  lemma TopIsPrefix<T>(sorted: seq<T>, key: T -> int, k: nat)
    requires SortedDesc(sorted, key) && k <= |sorted|
    ensures multiset(sorted[..k]) <= multiset(sorted)
    ensures forall d, i :: d in multiset(sorted) - multiset(sorted[..k]) && 0 <= i < k ==> key(d) <= key(sorted[i])
  {
    var top := sorted[..k];
    var rest := sorted[k..];
    assert sorted == top + rest;
    assert multiset(sorted) - multiset(top) == multiset(rest);
    forall d, i | d in multiset(sorted) - multiset(top) && 0 <= i < k ensures key(d) <= key(sorted[i]) {
      assert d in rest;
      var j :| 0 <= j < |rest| && rest[j] == d;
      assert sorted[k + j] == d;
    }
  }
}

=== FILE: seqs.dfy ===
/** Sequence operations shared by the model: the array methods the client calls. */
module Seqs {
  import opened Wrappers

  /** No value occurs twice. */
  predicate Distinct<T(==)>(s: seq<T>) {
    forall i, j :: 0 <= i < j < |s| ==> s[i] != s[j]
  }

  function Elements<T>(s: seq<T>): set<T> {
    set x | x in s
  }

  /** `a` can be obtained from `b` by deleting elements, keeping the order of the rest. */
  predicate IsSubsequence<T(==)>(a: seq<T>, b: seq<T>)
    decreases |b|
  {
    if |a| == 0 then true
    else if |b| == 0 then false
    else if a[0] == b[0] then IsSubsequence(a[1..], b[1..])
    else IsSubsequence(a, b[1..])
  }

  /** `Array.prototype.filter`: the elements satisfying `p`, each as often as in `xs`, in order. */
  function Filter<T(==,!new)>(xs: seq<T>, p: T -> bool): (r: seq<T>)
    ensures |r| <= |xs|
    ensures forall i :: 0 <= i < |r| ==> p(r[i])
    ensures forall x :: multiset(r)[x] == if p(x) then multiset(xs)[x] else 0
    ensures IsSubsequence(r, xs)
    decreases |xs|
  {
    if |xs| == 0 then []
    else
      assert xs == [xs[0]] + xs[1..];
      var rest := Filter(xs[1..], p);
      if p(xs[0]) then
        assert ([xs[0]] + rest)[1..] == rest;
        [xs[0]] + rest
      else
        rest
  }

  /** Filtering distributes over concatenation. */
  lemma {:induction false} FilterAppend<T(!new)>(a: seq<T>, b: seq<T>, p: T -> bool)
    ensures Filter(a + b, p) == Filter(a, p) + Filter(b, p)
    decreases |a|
  {
    if |a| > 0 {
      assert (a + b)[1..] == a[1..] + b;
      FilterAppend(a[1..], b, p);
    } else {
      assert a + b == b;
    }
  }

  /** Filtering keeps everything when every element passes. */
  lemma {:induction false} FilterAll<T(!new)>(xs: seq<T>, p: T -> bool)
    requires forall i :: 0 <= i < |xs| ==> p(xs[i])
    ensures Filter(xs, p) == xs
    decreases |xs|
  {
    if |xs| > 0 {
      FilterAll(xs[1..], p);
      assert xs == [xs[0]] + xs[1..];
    }
  }

  /** Filtering drops everything when no element passes. */
  lemma {:induction false} FilterNone<T(!new)>(xs: seq<T>, p: T -> bool)
    requires forall i :: 0 <= i < |xs| ==> !p(xs[i])
    ensures Filter(xs, p) == []
    decreases |xs|
  {
    if |xs| > 0 {
      FilterNone(xs[1..], p);
    }
  }

  /** The index of the first element satisfying `p`, if any. */
  function FirstIndex<T>(xs: seq<T>, p: T -> bool): (r: Option<nat>)
    ensures r.Some? ==> r.value < |xs| && p(xs[r.value])
    ensures r.Some? ==> forall j :: 0 <= j < r.value ==> !p(xs[j])
    ensures r.None? ==> forall j :: 0 <= j < |xs| ==> !p(xs[j])
    decreases |xs|
  {
    if |xs| == 0 then None
    else if p(xs[0]) then Some(0)
    else
      match FirstIndex(xs[1..], p)
      case None => None
      case Some(i) => Some(i + 1)
  }

  /** The first index is the one index where `p` holds with no earlier match. */
  lemma FirstIndexAt<T>(xs: seq<T>, p: T -> bool, i: nat)
    requires i < |xs| && p(xs[i])
    requires forall j :: 0 <= j < i ==> !p(xs[j])
    ensures FirstIndex(xs, p) == Some(i)
  {
  }

  /** `Set.prototype.delete` on an insertion-ordered set: drop `x`, keep the order of the rest. */
  function RemoveValue<T(==,!new)>(s: seq<T>, x: T): (r: seq<T>)
    ensures forall y :: y in r <==> y in s && y != x
    ensures Distinct(s) ==> Distinct(r)
    ensures Distinct(s) && x in s ==> |r| == |s| - 1
    ensures x !in s ==> r == s
    decreases |s|
  {
    if |s| == 0 then []
    else
      var rest := RemoveValue(s[1..], x);
      if s[0] == x then
        assert Distinct(s) ==> x !in s[1..];
        rest
      else
        assert s == [s[0]] + s[1..];
        assert Distinct(s) ==> s[0] !in s[1..];
        [s[0]] + rest
  }

  /** The test `y != x`: what deleting `x` keeps. */
  function Except<T(==)>(x: T): T -> bool {
    y => y != x
  }

  /** Deleting a value is filtering it out: the remaining elements keep their order. */
  lemma {:induction false} RemoveValueIsFilter<T(!new)>(s: seq<T>, x: T)
    ensures RemoveValue(s, x) == Filter(s, Except(x))
    decreases |s|
  {
    if |s| > 0 {
      assert s == [s[0]] + s[1..];
      RemoveValueIsFilter(s[1..], x);
    }
  }

  /** `new Set(array)`: the first occurrence of every value, in order of first occurrence. */
  function Dedup<T(==,!new)>(s: seq<T>): (r: seq<T>)
    ensures Distinct(r)
    ensures forall y :: y in r <==> y in s
    ensures Distinct(s) ==> r == s
    decreases |s|
  {
    if |s| == 0 then []
    else
      var init := s[..|s| - 1];
      var last := s[|s| - 1];
      assert s == init + [last];
      var d := Dedup(init);
      assert Distinct(s) ==> Distinct(init) && last !in init;
      if last in d then d else d + [last]
  }

  /** `new Set(array)` iterates in order of first occurrence: of two values of the result, the
      earlier one occurs in the input before the later one first does. */
  lemma {:induction false} DedupFirstOccurrenceOrder<T(!new)>(s: seq<T>)
    ensures forall i, j :: 0 <= i < j < |Dedup(s)| ==>
      exists a :: 0 <= a < |s| && s[a] == Dedup(s)[i] && Dedup(s)[j] !in s[..a]
    decreases |s|
  {
    if |s| == 0 {
      assert Dedup(s) == [];
    } else {
      var init := s[..|s| - 1];
      var last := s[|s| - 1];
      assert s == init + [last];
      DedupFirstOccurrenceOrder(init);
      var d := Dedup(init);
      var r := Dedup(s);
      forall i, j | 0 <= i < j < |r|
        ensures exists a :: 0 <= a < |s| && s[a] == r[i] && r[j] !in s[..a]
      {
        if j < |d| {
          assert r[i] == d[i] && r[j] == d[j];
          var a :| 0 <= a < |init| && init[a] == d[i] && d[j] !in init[..a];
          assert s[a] == init[a] && s[..a] == init[..a];
        } else {
          assert r[i] == d[i] && r[j] == last && last !in init;
          assert d[i] in init;
          var a :| 0 <= a < |init| && init[a] == d[i];
          assert s[a] == init[a] && s[..a] == init[..a];
        }
      }
    }
  }

  /** A duplicate-free sequence has as many elements as its set of values. */
  lemma {:induction false} DistinctCardinality<T>(s: seq<T>)
    requires Distinct(s)
    ensures |Elements(s)| == |s|
    decreases |s|
  {
    if |s| > 0 {
      var init := s[..|s| - 1];
      assert Distinct(init);
      DistinctCardinality(init);
      assert Elements(s) == Elements(init) + {s[|s| - 1]};
      assert s[|s| - 1] !in Elements(init);
    }
  }

  /** The longest prefix of `s` without `sep`: `s.split(sep)[0]`. */
  function PrefixBefore<T(==)>(s: seq<T>, sep: T): (r: seq<T>)
    ensures |r| <= |s| && r == s[..|r|]
    ensures sep !in r
    ensures |r| < |s| ==> s[|r|] == sep
    decreases |s|
  {
    if |s| == 0 || s[0] == sep then [] else [s[0]] + PrefixBefore(s[1..], sep)
  }

  /** Whatever follows the first separator-free part, the prefix is that part. */
  lemma PrefixBeforeJoin<T>(a: seq<T>, sep: T, b: seq<T>)
    requires sep !in a
    ensures PrefixBefore(a + [sep] + b, sep) == a
  {
    var s := a + [sep] + b;
    var r := PrefixBefore(s, sep);
    assert s[|a|] == sep;
    assert r == s[..|a|];
    assert s[..|a|] == a;
  }
}

=== FILE: watched.dfy ===
/** The per-user watched list of the `useWatched` hook: an insertion-ordered set of keys
    "<mediaType>-<mediaId>", loaded from and persisted to browser storage under
    "watched_<userId>". The set is a duplicate-free sequence, in the order a JavaScript
    `Set` iterates it, which is also the order persisting writes it. */
module Watched {
  import opened Wrappers
  import opened Seqs
  import Decimal

  /** The key of one watched title: the media type, '-', then the id's digits. For a media
      type without '-', the key splits at its first '-' back into the type and the id. */
  function MakeKey(mediaType: string, mediaId: nat): (k: string)
    ensures |k| > |mediaType| + 1 && k[..|mediaType|] == mediaType && k[|mediaType|] == '-'
    ensures Decimal.AllDigits(k[|mediaType| + 1..]) && Decimal.ParseDigits(k[|mediaType| + 1..]) == mediaId
    ensures k[|mediaType| + 1] == '0' ==> |k| == |mediaType| + 2
    ensures '-' !in mediaType ==> PrefixBefore(k, '-') == mediaType
  {
    var digits := Decimal.NatToString(mediaId);
    var k := mediaType + "-" + digits;
    assert k[..|mediaType|] == mediaType && k[|mediaType| + 1..] == digits;
    Decimal.ParseNatToString(mediaId);
    if '-' in mediaType then k
    else
      PrefixBeforeJoin(mediaType, '-', digits);
      k
  }

  /** For media types without '-' (such as "movie" and "tv"), distinct titles have distinct keys. */
  lemma MakeKeyInjective(t1: string, id1: nat, t2: string, id2: nat)
    requires '-' !in t1 && '-' !in t2
    ensures MakeKey(t1, id1) == MakeKey(t2, id2) <==> t1 == t2 && id1 == id2
  {
    if MakeKey(t1, id1) == MakeKey(t2, id2) {
      var k := MakeKey(t1, id1);
      assert t1 == PrefixBefore(k, '-') == t2;
    }
  }

  const StoragePrefix := "watched_"

  /** Where a signed-in user's list is kept; there is no storage key without a user. */
  function StorageKey(user: Option<string>): (k: Option<string>)
    ensures k.Some? <==> user.Some?
    ensures k.Some? ==> |k.value| == |StoragePrefix| + |user.value|
  {
    match user
    case None => None
    case Some(id) => Some(StoragePrefix + id)
  }

  /** Distinct users never share a storage key. */
  lemma StorageKeyInjective(a: string, b: string)
    ensures StorageKey(Some(a)) == StorageKey(Some(b)) ==> a == b
  {
    if StorageKey(Some(a)) == StorageKey(Some(b)) {
      assert a == (StoragePrefix + a)[|StoragePrefix|..];
      assert b == (StoragePrefix + b)[|StoragePrefix|..];
    }
  }

  /** What reading a storage entry and parsing it as JSON yields: an empty string, text that
      does not parse to an array, or the parsed array of keys. */
  datatype Stored = Blank | Unparseable | KeyList(keys: seq<string>)

  /** Browser storage, restricted to the entries this hook reads and writes. */
  type Storage = map<string, Stored>

  datatype HookState = HookState(storageKey: Option<string>, watched: seq<string>)

  /** Every state the hook reaches holds each key at most once, as a `Set` does. */
  predicate Valid(st: HookState) {
    Distinct(st.watched)
  }

  /** The keys stored under `storageKey`, when there are any. */
  function StoredKeys(storage: Storage, storageKey: Option<string>): Option<seq<string>> {
    if storageKey.Some? && storageKey.value in storage && storage[storageKey.value].KeyList? then
      Some(storage[storageKey.value].keys)
    else
      None
  }

  /** The state after the user changes: empty without a user; otherwise the stored keys when
      the entry exists and parses, and empty when it is missing, blank or malformed. */
  function Load(user: Option<string>, storage: Storage): (st: HookState)
    ensures st.storageKey == StorageKey(user)
    ensures Valid(st)
    ensures user.None? ==> st.watched == []
    ensures StoredKeys(storage, st.storageKey).None? ==> st.watched == []
    ensures StoredKeys(storage, st.storageKey).Some? ==>
      forall k :: k in st.watched <==> k in StoredKeys(storage, st.storageKey).value
    ensures StoredKeys(storage, st.storageKey).Some? && Distinct(StoredKeys(storage, st.storageKey).value) ==>
      st.watched == StoredKeys(storage, st.storageKey).value
  {
    var key := StorageKey(user);
    match StoredKeys(storage, key)
    case None => HookState(key, [])
    case Some(keys) => HookState(key, Dedup(keys))
  }

  /** Writes the list under the storage key; without a user nothing is written. */
  function Persist(storageKey: Option<string>, storage: Storage, next: seq<string>): (r: Storage)
    ensures storageKey.None? ==> r == storage
    ensures storageKey.Some? ==> storageKey.value in r && r[storageKey.value] == KeyList(next)
    ensures forall k :: k in storage && Some(k) != storageKey ==> k in r && r[k] == storage[k]
    ensures forall k :: k in r ==> k in storage || Some(k) == storageKey
  {
    match storageKey
    case None => storage
    case Some(k) => storage[k := KeyList(next)]
  }

  /** Whether a title is in the current list. */
  function IsWatched(st: HookState, mediaType: string, mediaId: nat): (r: bool)
    ensures r <==> MakeKey(mediaType, mediaId) in Elements(st.watched)
  {
    MakeKey(mediaType, mediaId) in st.watched
  }

  /** Flips one title's membership (a removed key leaves its place, an added key goes last)
      and persists the new list. */
  function Toggle(st: HookState, storage: Storage, mediaType: string, mediaId: nat): (r: (HookState, Storage))
    ensures r.0.storageKey == st.storageKey
    ensures MakeKey(mediaType, mediaId) in r.0.watched <==> MakeKey(mediaType, mediaId) !in st.watched
    ensures forall k :: k != MakeKey(mediaType, mediaId) ==> (k in r.0.watched <==> k in st.watched)
    ensures MakeKey(mediaType, mediaId) !in st.watched ==> r.0.watched == st.watched + [MakeKey(mediaType, mediaId)]
    ensures MakeKey(mediaType, mediaId) in st.watched ==>
      r.0.watched == Filter(st.watched, Except(MakeKey(mediaType, mediaId)))
    ensures Valid(st) ==> Valid(r.0)
    ensures st.storageKey.Some? ==> StoredKeys(r.1, st.storageKey) == Some(r.0.watched)
    ensures forall k :: k in storage && Some(k) != st.storageKey ==> k in r.1 && r.1[k] == storage[k]
    ensures forall k :: k in r.1 ==> k in storage || Some(k) == st.storageKey
    ensures st.storageKey.None? ==> r.1 == storage
  {
    var key := MakeKey(mediaType, mediaId);
    var next := if key in st.watched then RemoveValue(st.watched, key) else st.watched + [key];
    RemoveValueIsFilter(st.watched, key);
    (HookState(st.storageKey, next), Persist(st.storageKey, storage, next))
  }

  /** The number of watched titles. */
  function WatchedCount(st: HookState): (n: nat)
    requires Valid(st)
    ensures n == |Elements(st.watched)|
  {
    DistinctCardinality(st.watched);
    |st.watched|
  }

  /** Toggling flips the toggled title and leaves every other title as it was. */
  lemma ToggleFlipsOnlyThatTitle(st: HookState, storage: Storage, t: string, id: nat, t2: string, id2: nat)
    requires '-' !in t && '-' !in t2
    ensures IsWatched(Toggle(st, storage, t, id).0, t, id) == !IsWatched(st, t, id)
    ensures (t2, id2) != (t, id) ==>
      IsWatched(Toggle(st, storage, t, id).0, t2, id2) == IsWatched(st, t2, id2)
  {
    MakeKeyInjective(t, id, t2, id2);
  }

  /** Toggling the same title twice restores the set of watched titles; when the title was
      not watched, it restores the list exactly, order included; when it was, the title moves
      to the end and the others keep their order. */
  lemma ToggleTwice(st: HookState, storage: Storage, t: string, id: nat)
    ensures var once := Toggle(st, storage, t, id);
      var twice := Toggle(once.0, once.1, t, id);
      Elements(twice.0.watched) == Elements(st.watched)
      && (MakeKey(t, id) !in st.watched ==> twice.0 == st)
      && (MakeKey(t, id) in st.watched ==>
        twice.0.watched == Filter(st.watched, Except(MakeKey(t, id))) + [MakeKey(t, id)])
  {
    var key := MakeKey(t, id);
    var once := Toggle(st, storage, t, id);
    var twice := Toggle(once.0, once.1, t, id);
    if key !in st.watched {
      assert once.0.watched == st.watched + [key];
      RemoveFromEnd(st.watched, key);
    }
  }

  /** Removing a key that was appended to a list without it gives the list back. */
  lemma {:induction false} RemoveFromEnd(s: seq<string>, key: string)
    requires key !in s
    ensures RemoveValue(s + [key], key) == s
    decreases |s|
  {
    if |s| > 0 {
      assert (s + [key])[1..] == s[1..] + [key];
      RemoveFromEnd(s[1..], key);
      assert s == [s[0]] + s[1..];
    }
  }

  /** Each toggle changes the count by one: up when the title was not watched, down when it was. */
  lemma ToggleCount(st: HookState, storage: Storage, t: string, id: nat)
    requires Valid(st)
    ensures var next := Toggle(st, storage, t, id).0;
      Valid(next) &&
      WatchedCount(next) == if IsWatched(st, t, id) then WatchedCount(st) - 1 else WatchedCount(st) + 1
  {
  }

  /** Signed out, the list is empty, nothing is watched, and toggling writes nothing to storage. */
  lemma SignedOut(storage: Storage, t: string, id: nat)
    ensures Load(None, storage).watched == []
    ensures !IsWatched(Load(None, storage), t, id)
    ensures Toggle(Load(None, storage), storage, t, id).1 == storage
  {
  }

  /** What a toggle persists is what the next load for the same user reads back. */
  lemma ReloadAfterToggle(user: string, storage: Storage, t: string, id: nat)
    ensures var next := Toggle(Load(Some(user), storage), storage, t, id);
      Load(Some(user), next.1) == next.0
  {
  }

  /** A toggle by one user leaves what any other user loads unchanged. */
  lemma IdentityIsolation(a: string, b: string, storage: Storage, t: string, id: nat)
    requires a != b
    ensures var next := Toggle(Load(Some(a), storage), storage, t, id);
      Load(Some(b), next.1) == Load(Some(b), storage)
  {
    StorageKeyInjective(a, b);
    var next := Toggle(Load(Some(a), storage), storage, t, id);
    assert StoredKeys(next.1, StorageKey(Some(b))) == StoredKeys(storage, StorageKey(Some(b)));
  }
}

=== FILE: wrappers.dfy ===
/** Optional values: `None` stands for JavaScript's `null`, and for a field the client reads
    before it is set. */
module Wrappers {

  datatype Option<+T> = None | Some(value: T)
}

/** The bits of JavaScript value semantics the client relies on. */
module Js {
  import opened Wrappers

  /** A possibly-missing string is truthy when present and non-empty. */
  predicate Truthy(s: Option<string>) {
    s.Some? && s.value != ""
  }

  /** `a || b` on two possibly-missing strings: the first operand when truthy, else the second. */
  function Or(a: Option<string>, b: Option<string>): (r: Option<string>)
    ensures Truthy(a) ==> r == a
    ensures !Truthy(a) ==> r == b
    ensures Truthy(r) <==> Truthy(a) || Truthy(b)
  {
    if Truthy(a) then a else b
  }

  /** A possibly-null string inside a template literal: `null` prints as "null". A field the
      record lacks altogether would print as "undefined"; the API's records always carry the
      fields interpolated here, sent as `null` when empty. */
  function Interpolate(s: Option<string>): string {
    match s
    case Some(v) => v
    case None => "null"
  }
}
